=== FILE: README.md ===
# dsRenamingTool naming engine in Dafny

A model of the name-generation logic of dsRenamingTool, a Maya tool that
renames scene objects. The tool has two revisions of the same engine, and
both are modelled as pure functions over strings, maps and a finite set of
existing scene names. The alias-table steps of the alias editor are
modelled as well.

- **Template revision** (`Template` in `template.py`).
  - A template is a JSON record. Its `mapping` is a `str.format` pattern such
    as `{side}_{name}_{index}_{suffix}`.
  - `generate_name` fills the pattern from the caller's token dict.
  - A suffix is derived from the node's type when the mapping text mentions
    "suffix" and the caller gave none.
  - When the pattern has an `index` field, the engine probes indices upward
    from `index_start`. Each index is rendered `str(i).zfill(index_padding + 1)`.
    The probe stops at the first name that does not exist in the scene.
- **Legacy revision** (`RenameUtils` in `renameFn.py`).
  - The name is hard-wired as `[prefix_]newName`, then a zero-filled index,
    then `_suffix`.
  - The probe also stops on the object's own current name. Renaming an
    object to the name it already holds therefore keeps that name.
- **Alias table** (`AliasDialog` in `aliasesDialog.py`).
  - The nine default type-to-suffix pairs.
  - The collapse of the editor's rows into the saved dictionary: rows
    without a type are skipped, and the last row for a type wins.
  - "Reset to defaults".

Modules, in dependency order:

- `Results`: Option and Result.
- `Text`: substring, prefix and suffix tests, and ASCII upper-casing.
- `Digits`: `str(n)`, `zfill`, and `int(s)` as the reading partner.
- `Pattern`: `Formatter().parse`, `get_tokens` and `format_map`, with
  parsing proved to invert printing.
- `Probing`: the linear probe shared by both revisions. It terminates
  because distinct indices render to distinct names and the scene is
  finite.
- `Suffixes`: both revisions of the suffix lookup.
- `Aliases`: the alias table.
- `TemplateFiles`: template names and paths.
- `TemplateEngine`: the template record and `generate_name`.
- `LegacyRename`: `rename` and `genName`.

The host application appears only as parameters:

- the set `taken` of existing names stands for `pm.objExists`;
- a `SceneNode` holds the node's type and its children's types, which
  stands for `pm.objectType` and `pm.listRelatives`;
- the object's current name;
- the alias dictionary that `getSuffix` reads from the settings;
- a directory listing.

Behaviour of the code worth noting:

- **Transform fallback.** A transform with children always uses its first
  child's type, not only when the transform itself has no alias
  (`template.py:85-88`, `renameFn.py:58-61`).
- **No probe cap.** Neither probe has a cap, so there is no
  "index space exhausted" error. The probe ends because the scene is finite.
- **Self-name rule.** Only the legacy revision has it. The template
  revision moves on to the next index even when the name is the object's
  own name.
- **Fallback suffix.** The template revision falls back to `"obj"`, which
  becomes `"OBJ"` only when `upper_case_suffix` is set. The legacy revision
  falls back to `"OBJ"`.

## Model

| member | source | states |
|---|---|---|
| Pattern.Parse | dsRenamingTool/template.py:57-58 | a successful parse gives literal characters and plain `{name}` fields that print back to exactly the pattern text (`{{`/`}}` printing as escaped braces); any failure is the malformed-pattern error |
| Pattern.ParseUnparse | dsRenamingTool/template.py:57-58 | parsing the printed form of any well-formed segment list gives that list back, so the tokenisation loses nothing |
| Pattern.Tokens | dsRenamingTool/template.py:57-58 | a name is a token exactly when it is non-empty and some field of the pattern carries it; literals and `{}` give none |
| Pattern.TokensAppend | dsRenamingTool/template.py:57-58 | tokens of a concatenated pattern are the first part's tokens followed by the second's, so order of appearance is kept |
| Pattern.TokensSingle | dsRenamingTool/template.py:57-58 | each field contributes its name once per occurrence (duplicates kept); a literal or an empty field contributes nothing |
| Pattern.GetTokens | dsRenamingTool/template.py:57-58 | `get_tokens` succeeds exactly when the mapping parses, and lists exactly the non-empty field names |
| Pattern.IsIndexed | dsRenamingTool/template.py:49-51 | `is_indexed` holds exactly when the pattern has an `{index}` field; a malformed mapping is an error |
| Pattern.Render | dsRenamingTool/template.py:66-67 | `format_map` succeeds exactly when every field is a keyword with a value, giving the filled text; otherwise the error is the one for the FIRST field, left to right, that is positional (`PositionalField`) or has no value (`MissingToken` naming it) |
| Pattern.FillIndexInjective | dsRenamingTool/template.py:77-80 | a pattern with an `{index}` field renders different index texts to different names, whatever the other values are |
| Digits.Decimal | dsRenamingTool/template.py:78 | `str(n)` is a non-empty digit string with a leading '0' only for zero, exactly "0" for zero, and one character long exactly for n < 10 |
| Digits.DecimalReadsBack | dsRenamingTool/template.py:78 | reading `str(n)` back as a number gives n |
| Digits.ZFill | dsRenamingTool/template.py:78 | `zfill(width)` left-fills with '0' up to the width, keeps the text as its tail and never truncates |
| Digits.Pad | dsRenamingTool/template.py:78 | the rendered index is at least `width` long, all digits, zero-filled on the left, and reads back as the index |
| TemplateEngine.DefaultPaddingRendersZero | dsRenamingTool/template.py:69-70 | with no `index_padding` in the record, index 0 renders as "00" |
| TemplateEngine.SuffixAliases | dsRenamingTool/template.py:30-33 | a record without `suffix_aliases` has the empty table |
| TemplateEngine.UpperCaseSuffix | dsRenamingTool/template.py:40-43 | a record without `upper_case_suffix` does not upper-case |
| TemplateEngine.IndexStart | dsRenamingTool/template.py:69 | a record without `index_start` probes from 0 |
| TemplateEngine.IndexPadding | dsRenamingTool/template.py:70 | a record without `index_padding` has padding 1 |
| TemplateEngine.SetMapping | dsRenamingTool/template.py:45-47 | after setting the mapping it reads back as the new pattern, and every other key of the record is unchanged |
| TemplateFiles.Basename | dsRenamingTool/template.py:21 | the basename holds no '/', ends the path and follows its last '/' |
| TemplateFiles.BeforeFirstDot | dsRenamingTool/template.py:21 | `split(".")[0]` holds no '.', starts the text and is followed by a '.' or the end |
| TemplateFiles.TemplateName | dsRenamingTool/template.py:18-21 | a template's name holds neither '/' nor '.' |
| TemplateFiles.NameRoundTrip | dsRenamingTool/template.py:94-95 | loading the file a template is saved to by default gives back the template's name |
| TemplateFiles.DefaultNameIff | dsRenamingTool/template.py:26-28 | the name is "default" exactly when the basename is "default" or starts with "default." |
| TemplateEngine.IsDefaultLoaded | dsRenamingTool/template.py:25-28 | `is_default` on a loaded template holds exactly when the file's basename is "default" or "default.<anything>" |
| TemplateFiles.ListTemplateFiles | dsRenamingTool/template.py:110-118 | the listing keeps exactly the entries ending in ".json", joined onto the directory, and nothing else |
| TemplateFiles.ListTemplateFilesAppend | dsRenamingTool/template.py:114-117 | listing two concatenated directory listings gives the two listings in order, so entries keep their listing order |
| TemplateFiles.ListTemplateFilesSingle | dsRenamingTool/template.py:114-117 | a single entry is listed once, joined onto the directory, exactly when it ends in ".json"; with the append lemma, each `.json` entry appears exactly once, in listing order |
| TemplateEngine.SuffixFieldIsDetected | dsRenamingTool/template.py:62 | whenever the pattern has a `{suffix}` field, the substring test on the mapping text fires |
| TemplateEngine.PrepareTokensStep | dsRenamingTool/template.py:62-64 | the suffix step keeps all caller values, adds the derived suffix exactly when the node is given, "suffix" is in the text and absent from the dict, and never overwrites an explicit suffix |
| TemplateEngine.GenerateName | dsRenamingTool/template.py:60-75 | a missing mapping and a malformed pattern are errors; rendering succeeds exactly when every field resolves, and a render failure is `format_map`'s error for the first unresolved field (of the render at `index_start` when indexed); the name is the rendering of the returned dict; without `{index}` the prepared dict is used as is; with it, only the index slot changes and it holds the lowest free index at or above `index_start` |
| TemplateEngine.PlainName | dsRenamingTool/template.py:66-67 | the non-indexed branch renders once, with no existence check, fails exactly when a field does not resolve, and then reports the first unresolved field |
| TemplateEngine.IndexedRender | dsRenamingTool/template.py:69-75 | the indexed branch fails exactly when a field other than `index` does not resolve, reporting the first unresolved field of the render at the start index; otherwise its name is free, every earlier index's name is taken, and only the index slot changed |
| TemplateEngine.IndexedName | dsRenamingTool/template.py:71-80 | the probe's index slot holds the zero-filled lowest index at or above the start whose rendering is not taken, and the name is that rendering |
| TemplateEngine.CandidatesInjective | dsRenamingTool/template.py:77-80 | distinct indices render to distinct candidate names, which bounds the probe by the number of existing names |
| TemplateEngine.IndexSlotKeepsStep | dsRenamingTool/template.py:79 | writing the index slot keeps every caller value and the suffix step's guarantees |
| TemplateEngine.GenerateNameTokens | dsRenamingTool/template.py:60-79 | after a successful call the caller's dict keeps every value it had except `index`, gains a suffix only by the injection rule, and keeps an explicit suffix; without `{index}` the index slot is untouched |
| TemplateEngine.EmptySceneTakesStart | dsRenamingTool/template.py:69-75 | in a scene with no names the indexed template takes `index_start` itself |
| TemplateEngine.RerunMovesOn | dsRenamingTool/template.py:71-74 | once the generated name exists, generating again succeeds with a different name: this revision has no self-name rule |
| Suffixes.TemplateSuffix | dsRenamingTool/template.py:82-92 | the alias of the looked-up type, or "obj" when there is none; upper-cased after the lookup when asked, leaving no lower-case ASCII letter |
| Suffixes.LegacySuffix | dsRenamingTool/renameFn.py:55-69 | the alias of the looked-up type, or "OBJ" when there is none, with no case conversion |
| Suffixes.TransformFallback | dsRenamingTool/renameFn.py:58-61 | both revisions use a transform's first child's type when it has children, and the node's own type otherwise |
| Suffixes.RevisionsAgreeUpToCase | dsRenamingTool/template.py:89-91 | the upper-cased template suffix equals the upper-cased legacy suffix, and on a known type without upper-casing the two are equal |
| Text.ToUpper | dsRenamingTool/template.py:91 | `upper()` keeps the length, changes only ASCII lower-case letters and leaves none behind |
| Probing.ProbeFrom | dsRenamingTool/template.py:72-74 | the probe from an index returns the first index at or after it whose candidate is free or is the object's own name |
| Probing.TakenBound | dsRenamingTool/template.py:72-74 | at most as many consecutive candidates as there are existing names can all be taken, so the probe ends |
| Probing.FirstStop | dsRenamingTool/renameFn.py:33-44 | the result is at or above the start, its candidate is free or the current name, and every earlier candidate exists and is not the current name |
| Probing.FirstStopUnique | dsRenamingTool/template.py:72-74 | any index that stops the probe and has only non-stopping predecessors is the probe's result |
| Probing.FirstStopAfterSelfRename | dsRenamingTool/renameFn.py:38-41 | after the object is renamed to the chosen candidate, probing again with that name as current picks the same index |
| LegacyRename.CandidatesInjective | dsRenamingTool/renameFn.py:43-44 | `name + zfill(i) + suffix` differs for different indices |
| LegacyRename.GenName | dsRenamingTool/renameFn.py:26-52 | non-indexed gives `name + "_" + suffix` (or `name` alone); indexed gives `name`, digits, suffix, where the digits are the zero-filled first index at or above `start` whose name is free or the current name, all earlier ones existing and not the current name |
| LegacyRename.Rename | dsRenamingTool/renameFn.py:7-24 | no name exactly when `newName` is empty; otherwise the name starts with `prefix_newName` (or `newName`), ends with the chosen suffix (the derived one under `autoSuffix`), and is probed with padding `indexPadding + 1` |
| LegacyRename.GenNameIdempotent | dsRenamingTool/renameFn.py:38-41 | running the indexed rename again on the renamed object gives back the name it now holds |
| LegacyRename.ProbeSkipsTakenNames | dsRenamingTool/renameFn.py:33-44 | with "foo_00" and "foo_01" existing and padding 2, the probe from 0 returns "foo_02" |
| Aliases.DefaultOrderIsKeys | dsRenamingTool/aliasesDialog.py:9-19 | the default table's key order lists each of its nine keys exactly once, none empty |
| Aliases.AliasTableData | dsRenamingTool/aliasesDialog.py:103-111 | the saved keys are exactly the non-empty row types; for each type the last row holding it supplies the suffix, an unfilled cell reading "None" |
| Aliases.TableRows | dsRenamingTool/aliasesDialog.py:126-130 | one row per listed key, holding the key and its value in the table, in order |
| Aliases.ResetRows | dsRenamingTool/aliasesDialog.py:125-130 | after a reset there is exactly one row per default type, each with its default suffix |
| Aliases.SaveTableRows | dsRenamingTool/aliasesDialog.py:103-111 | rows listing each key of a table once, with its value, save back to exactly that table |
| Aliases.ResetThenSave | dsRenamingTool/aliasesDialog.py:113-116 | saving right after a reset stores exactly the default table |

## Left out

- Maya calls (`pm.objExists`, `pm.objectType`, `pm.listRelatives`,
  `pm.rename`, `pm.optionVar`, `pm.moduleInfo`) become parameters. A
  renamed object is assumed to take exactly the name it is given. Maya's own
  renaming on a clash is not modelled.
- File I/O is outside the model, so only the string logic around it is kept:
  - `open` and `json.load` in `Template.__init__`;
  - `json.dump` in `export_to_json`;
  - `os.listdir`;
  - `os.path.isfile` in `on_disk`;
  - `get_templates_dir`.
- The JSON record is taken as already decoded into typed fields. Wrongly
  typed JSON values are not modelled.
- `index_start` is a natural number. A negative start from a hand-edited
  file, and the sign handling of `zfill`, are not modelled.
- Format specs (`:>5`), conversions (`!r`) and attribute or index field
  names (`a.b`, `a[0]`) are not modelled, because templates use plain
  names. The whole text between braces is the field name.
- `upper()` is modelled on ASCII letters only. Unicode case mapping is
  outside the model.
- Paths are POSIX paths. Windows separators in `os.path` are not modelled.
- `pm.warning` messages and exception texts are not modelled. Errors are
  kinds (`MissingMapping`, `Malformed`, `PositionalField`,
  `MissingToken`).
- `getSuffix` reads the alias table from the settings, and the model takes
  that table as a parameter. A missing setting, where `pm.optionVar[...]`
  raises KeyError before `json.loads` runs, and a malformed setting, which
  `json.loads` rejects, are not modelled.
- The legacy self-name test compares a scene node with a string. It is
  modelled as comparing the object's current name.
- The Qt dialogs, `config.py`, `__repr__`, `get_templates` and
  `updateAliasTable` are UI or I/O glue with no naming logic.
- Two inconsistencies between files are recorded, not reconciled:
  - `mainDialog.py:150-158` passes an alias dict positionally into
    `renameFn.py:8`, which has no such parameter.
  - `renameFn.py:57` reads the alias setting under a different key from the
    one `aliasesDialog.py:91,116` writes.
- No end-to-end instance of `{side}_{name}_{index}_{suffix}` is proved.
  Its parts are:
  - `EmptySceneTakesStart`: an empty scene takes the start index;
  - `DefaultPaddingRendersZero`: the default padding renders "00";
  - `Suffixes.TemplateSuffix`: the alias lookup.
- TemplateEngine.GenerateName: on failure it returns only the error.
  Python changes the caller's dict even when the call fails. It writes
  `tokens_map["suffix"]` at `template.py:64` and `tokens_map["index"]` at
  `template.py:79`, both before `format_map` can raise. The model does
  not state the dict a failed call leaves behind, because its error result
  carries no dict.
- Pattern.Positional: only ASCII digit names count as positional. CPython
  also treats names made of other Unicode decimal digits as positional, so
  for such names the model expects a keyword lookup where Python raises.

=== FILE: aliases.dfy ===
/** The suffix alias table of the alias editor (aliasesDialog.py): the
    built-in defaults, and the two pure steps between the editor's rows and
    the type-to-suffix dictionary that is saved. A row is two cells; a cell
    that was never filled reads back as None. */
module Aliases {

  import opened Results

  /** DEFAULT_SUFFIX_ALIASES */
  const DefaultAliases: map<string, string> := map[
    "transform" := "GRP",
    "mesh" := "PLY",
    "nurbsCurve" := "CRV",
    "nurbsSurface" := "NURB",
    "pointLight" := "LGT",
    "areaLight" := "LGT",
    "joint" := "JNT",
    "locator" := "LOC",
    "camera" := "CAM"
  ]

  /** The defaults' key order, in which "Reset to defaults" fills the rows. */
  const DefaultOrder: seq<string> :=
    ["transform", "mesh", "nurbsCurve", "nurbsSurface", "pointLight", "areaLight", "joint", "locator", "camera"]

  datatype Row = Row(objType: Option<string>, suffix: Option<string>)

  /** `str(cell)`: an unfilled cell is None, which prints as "None". */
  function CellText(cell: Option<string>): string {
    match cell
    case Some(t) => t
    case None => "None"
  }

  /** The row's object type; "" when the cell is empty or unfilled, both of
      which Python treats as false. */
  function RowType(row: Row): string {
    row.objType.GetOr("")
  }

  ghost function RowTypes(rows: seq<Row>): set<string> {
    set k | 0 <= k < |rows| && RowType(rows[k]) != "" :: RowType(rows[k])
  }

  /** No later row has the same type as row k. */
  ghost predicate LastOfType(rows: seq<Row>, k: int)
    requires 0 <= k < |rows|
  {
    forall j :: k < j < |rows| ==> RowType(rows[j]) != RowType(rows[k])
  }

  /** `getAliasTableData`: rows without a type are skipped; for a type on
      several rows the last row's suffix wins. */
  function AliasTableData(rows: seq<Row>): (m: map<string, string>)
    ensures m.Keys == RowTypes(rows)
    ensures forall k :: 0 <= k < |rows| && RowType(rows[k]) != "" && LastOfType(rows, k) ==>
      m[RowType(rows[k])] == CellText(rows[k].suffix)
  {
    if rows == [] then map[]
    else
      var init, last := rows[..|rows| - 1], rows[|rows| - 1];
      var m := AliasTableData(init);
      assert forall k :: 0 <= k < |init| ==> init[k] == rows[k];
      assert RowTypes(rows) == RowTypes(init) + (if RowType(last) != "" then {RowType(last)} else {});
      if RowType(last) != "" then m[RowType(last) := CellText(last.suffix)] else m
  }

  /** The key order lists every default type exactly once, none of them empty. */
  lemma DefaultOrderIsKeys()
    ensures forall k :: 0 <= k < |DefaultOrder| ==> DefaultOrder[k] in DefaultAliases && DefaultOrder[k] != ""
    ensures forall t :: t in DefaultAliases ==> t in DefaultOrder
    ensures forall i, j :: 0 <= i < j < |DefaultOrder| ==> DefaultOrder[i] != DefaultOrder[j]
  {
  }

  /** One row per key of `order`, holding the key and its value in `table`. */
  function TableRows(order: seq<string>, table: map<string, string>): (rows: seq<Row>)
    requires forall k :: 0 <= k < |order| ==> order[k] in table
    ensures |rows| == |order|
    ensures forall k :: 0 <= k < |rows| ==> rows[k] == Row(Some(order[k]), Some(table[order[k]]))
  {
    seq(|order|, k requires 0 <= k < |order| => Row(Some(order[k]), Some(table[order[k]])))
  }

  /** The types of such rows are the non-empty keys listed. */
  lemma TableRowTypes(order: seq<string>, table: map<string, string>)
    requires forall k :: 0 <= k < |order| ==> order[k] in table && order[k] != ""
    ensures RowTypes(TableRows(order, table)) == set k | 0 <= k < |order| :: order[k]
  {
    var rows := TableRows(order, table);
    assert forall k :: 0 <= k < |rows| ==> RowType(rows[k]) == order[k];
  }

  /** `resetToDefault`: one row per default type, in the defaults' order. */
  function ResetRows(): (rows: seq<Row>)
    ensures |rows| == |DefaultOrder|
    ensures forall k :: 0 <= k < |rows| ==>
      && rows[k].objType.Some? && RowType(rows[k]) in DefaultAliases
      && rows[k].suffix == Some(DefaultAliases[RowType(rows[k])])
    ensures forall i, j :: 0 <= i < j < |rows| ==> RowType(rows[i]) != RowType(rows[j])
    ensures RowTypes(rows) == DefaultAliases.Keys
  {
    DefaultOrderIsKeys();
    TableRowTypes(DefaultOrder, DefaultAliases);
    var listed := set k | 0 <= k < |DefaultOrder| :: DefaultOrder[k];
    assert listed == DefaultAliases.Keys by {
      forall t | t in DefaultAliases
        ensures t in listed
      {
        var k :| 0 <= k < |DefaultOrder| && DefaultOrder[k] == t;
      }
    }
    TableRows(DefaultOrder, DefaultAliases)
  }

  /** `rows` lists the keys of `order` with their values in `table`. */
  ghost predicate ListsTable(rows: seq<Row>, order: seq<string>, table: map<string, string>) {
    && |rows| == |order|
    && forall k :: 0 <= k < |rows| ==> order[k] in table && rows[k] == Row(Some(order[k]), Some(table[order[k]]))
  }

  /** Saving rows that list each key of `table` once, with its value, gives
      back `table`. */
  lemma SaveTableRows(rows: seq<Row>, order: seq<string>, table: map<string, string>)
    requires ListsTable(rows, order, table)
    requires forall k :: 0 <= k < |order| ==> order[k] != ""
    requires forall t :: t in table ==> t in order
    requires forall i, j :: 0 <= i < j < |order| ==> order[i] != order[j]
    ensures AliasTableData(rows) == table
  {
    SavedKeys(rows, order, table);
    SavedValues(rows, order, table);
  }

  lemma SavedValues(rows: seq<Row>, order: seq<string>, table: map<string, string>)
    requires ListsTable(rows, order, table)
    requires forall k :: 0 <= k < |order| ==> order[k] != ""
    requires forall t :: t in table ==> t in order
    requires forall i, j :: 0 <= i < j < |order| ==> order[i] != order[j]
    ensures forall t :: t in table ==> t in AliasTableData(rows) && AliasTableData(rows)[t] == table[t]
  {
    forall t | t in table
      ensures t in AliasTableData(rows) && AliasTableData(rows)[t] == table[t]
    {
      var k :| 0 <= k < |order| && order[k] == t;
      SavedValue(rows, order, table, k);
    }
  }

  lemma SavedKeys(rows: seq<Row>, order: seq<string>, table: map<string, string>)
    requires ListsTable(rows, order, table)
    requires forall k :: 0 <= k < |order| ==> order[k] != ""
    requires forall t :: t in table ==> t in order
    ensures AliasTableData(rows).Keys == table.Keys
  {
    assert forall k :: 0 <= k < |rows| ==> RowType(rows[k]) == order[k];
    forall t | t in table
      ensures t in RowTypes(rows)
    {
      var k :| 0 <= k < |order| && order[k] == t;
      assert RowType(rows[k]) == t;
    }
  }

  lemma SavedValue(rows: seq<Row>, order: seq<string>, table: map<string, string>, k: nat)
    requires ListsTable(rows, order, table)
    requires forall k :: 0 <= k < |order| ==> order[k] != ""
    requires forall i, j :: 0 <= i < j < |order| ==> order[i] != order[j]
    requires k < |order|
    ensures order[k] in AliasTableData(rows)
    ensures AliasTableData(rows)[order[k]] == table[order[k]]
  {
    assert RowType(rows[k]) == order[k];
    assert LastOfType(rows, k);
  }

  /** Saving right after a reset stores exactly the default table. */
  lemma ResetThenSave()
    ensures AliasTableData(ResetRows()) == DefaultAliases
  {
    DefaultOrderIsKeys();
    SaveTableRows(ResetRows(), DefaultOrder, DefaultAliases);
  }
}

=== FILE: digits.dfy ===
/** Decimal rendering of indices: Python's `str(n)` for a non-negative int,
    `str.zfill(width)`, and `int(s)` on a string of digits as the reading
    partner that proves the rendering loses nothing. */
module Digits {

  import opened Text

  predicate IsDigit(c: char) {
    '0' <= c <= '9'
  }

  predicate AllDigits(s: string) {
    forall k :: 0 <= k < |s| ==> IsDigit(s[k])
  }

  function DigitChar(d: nat): (c: char)
    requires d < 10
    ensures IsDigit(c)
  {
    ('0' as int + d) as char
  }

  function DigitValue(c: char): (d: nat)
    requires IsDigit(c)
    ensures d < 10
  {
    c as int - '0' as int
  }

  /** `str(n)` for n >= 0: digits only, and a leading '0' only for zero itself. */
  function Decimal(n: nat): (s: string)
    ensures 1 <= |s|
    ensures AllDigits(s)
    ensures s[0] == '0' <==> n == 0
    ensures n == 0 ==> s == "0"
    ensures |s| == 1 <==> n < 10
    decreases n
  {
    if n < 10 then [DigitChar(n)] else Decimal(n / 10) + [DigitChar(n % 10)]
  }

  /** `int(s)` on a string of decimal digits (leading zeros allowed). */
  function ReadDecimal(s: string): nat
    requires AllDigits(s)
  {
    if s == [] then 0 else 10 * ReadDecimal(s[..|s| - 1]) + DigitValue(s[|s| - 1])
  }

  function Zeros(k: nat): (z: string)
    ensures |z| == k
    ensures forall i :: 0 <= i < k ==> z[i] == '0'
  {
    seq(k, _ => '0')
  }

  /** `s.zfill(width)` for an unsigned digit string: left-filled with '0' up
      to `width` characters, never truncated. */
  function ZFill(s: string, width: int): (r: string)
    ensures |r| == if |s| < width then width else |s|
    ensures EndsWith(r, s)
    ensures forall k :: 0 <= k < |r| - |s| ==> r[k] == '0'
  {
    if |s| < width then Zeros(width - |s|) + s else s
  }

  /** The rendered index `str(index).zfill(width)`. */
  function Pad(index: nat, width: int): (r: string)
    ensures |r| == if |Decimal(index)| < width then width else |Decimal(index)|
    ensures EndsWith(r, Decimal(index))
    ensures forall k :: 0 <= k < |r| - |Decimal(index)| ==> r[k] == '0'
    ensures AllDigits(r) && ReadDecimal(r) == index
  {
    var s := Decimal(index);
    var z: nat := if |s| < width then width - |s| else 0;
    DecimalReadsBack(index);
    LeadingZerosRead(z, s);
    assert ZFill(s, width) == Zeros(z) + s;
    ZFill(s, width)
  }

  /** A one-digit index at width 2 gets exactly one leading zero. */
  lemma PadOneDigit(d: nat)
    requires d < 10
    ensures Pad(d, 2) == ['0', DigitChar(d)]
  {
    var r := Pad(d, 2);
    assert Decimal(d) == [DigitChar(d)];
    assert r[1..] == [DigitChar(d)];
  }

  /** Reading back `str(n)` gives n. */
  lemma {:induction false} DecimalReadsBack(n: nat)
    ensures ReadDecimal(Decimal(n)) == n
    decreases n
  {
    if n >= 10 {
      DecimalReadsBack(n / 10);
      var s := Decimal(n);
      assert s[..|s| - 1] == Decimal(n / 10);
    }
  }

  lemma {:induction false} ZerosReadZero(k: nat)
    ensures ReadDecimal(Zeros(k)) == 0
  {
    if k > 0 {
      assert Zeros(k)[..k - 1] == Zeros(k - 1);
      ZerosReadZero(k - 1);
    }
  }

  /** Left-filling with zeros does not change the value read. */
  lemma {:induction false} LeadingZerosRead(k: nat, s: string)
    requires AllDigits(s)
    ensures AllDigits(Zeros(k) + s)
    ensures ReadDecimal(Zeros(k) + s) == ReadDecimal(s)
    decreases |s|
  {
    if s == [] {
      assert Zeros(k) + s == Zeros(k);
      ZerosReadZero(k);
    } else {
      var t := Zeros(k) + s;
      assert t[..|t| - 1] == Zeros(k) + s[..|s| - 1];
      LeadingZerosRead(k, s[..|s| - 1]);
    }
  }
}

=== FILE: legacy_rename.dfy ===
/** The legacy revision of the naming engine (renameFn.py, RenameUtils).

    The name is hard-wired: `[prefix_]newName`, then a zero-filled index
    when indexing, then `_suffix` when a suffix is given or derived. The
    index probe also stops on the object's own current name, so renaming an
    object to the name it already has keeps that name.

    Python's None and "" are both false for `prefix` and `suffix`, so both
    are written "" here. The scene is the set `taken` of existing names, the
    object's current name, and the node's types for the automatic suffix. */
module LegacyRename {

  import opened Results
  import opened Text
  import Digits
  import Probing
  import Suffixes

  /** The suffix as joined: "_" + suffix when non-empty, nothing otherwise. */
  function SuffixPart(suffix: string): string {
    if suffix != "" then "_" + suffix else ""
  }

  /** `prefix_newName` for a non-empty prefix, `newName` otherwise. */
  function BaseName(prefix: string, newName: string): string {
    if prefix != "" then prefix + "_" + newName else newName
  }

  /** `name + str(index).zfill(padding) + suffix`, no separator before the index. */
  function Candidates(name: string, padding: int, suffixPart: string): nat -> string {
    (i: nat) => name + Digits.Pad(i, padding) + suffixPart
  }

  /** Distinct indices give distinct candidates for a fixed name and suffix. */
  lemma CandidatesInjective(name: string, padding: int, suffixPart: string, start: nat)
    ensures Probing.InjectiveFrom(Candidates(name, padding, suffixPart), start)
  {
    var cand := Candidates(name, padding, suffixPart);
    forall i: nat, j: nat | start <= i < j
      ensures cand(i) != cand(j)
    {
      var a, b := Digits.Pad(i, padding), Digits.Pad(j, padding);
      assert a != b by {
        assert Digits.ReadDecimal(a) != Digits.ReadDecimal(b);
      }
      if |a| != |b| {
        assert |cand(i)| != |cand(j)|;
      } else {
        assert cand(i)[|name|..|name| + |a|] == a;
        assert cand(j)[|name|..|name| + |b|] == b;
      }
    }
  }

  /** `r` is `name`, the zero-filled index k, then `suffixPart`, where k is
      the first index from `start` whose candidate is free or is the
      object's current name; every earlier candidate exists and is not it. */
  ghost predicate ProbedName(name: string, padding: int, suffixPart: string, start: nat,
                             taken: set<string>, current: string, r: string)
  {
    && |name| + |suffixPart| <= |r|
    && StartsWith(r, name) && EndsWith(r, suffixPart)
    && var digits := r[|name|..|r| - |suffixPart|];
    && Digits.AllDigits(digits)
    && var k := Digits.ReadDecimal(digits);
    && start <= k && digits == Digits.Pad(k, padding)
    && (r !in taken || r == current)
    && forall j: nat :: start <= j < k ==>
         Candidates(name, padding, suffixPart)(j) in taken && Candidates(name, padding, suffixPart)(j) != current
  }

  /** `genName(obj, name, suffix, indexing, padding, start)`. */
  function GenName(current: string, name: string, suffix: string, indexing: bool, padding: int,
                   start: nat, taken: set<string>): (r: string)
    ensures !indexing ==> r == name + SuffixPart(suffix)
    ensures indexing ==> ProbedName(name, padding, SuffixPart(suffix), start, taken, current, r)
  {
    if indexing then
      var sfx := SuffixPart(suffix);
      var cand := Candidates(name, padding, sfx);
      CandidatesInjective(name, padding, sfx, start);
      var k := Probing.FirstStop(cand, taken, Some(current), start);
      var digits := Digits.Pad(k, padding);
      assert (name + digits + sfx)[|name|..|name + digits + sfx| - |sfx|] == digits;
      cand(k)
    else
      name + SuffixPart(suffix)
  }

  /** `rename(obj, newName, prefix, suffix, autoSuffix, indexing, indexPadding,
      startIndex)`, up to the call that renames the object: the name it is
      given, or None when `newName` is empty and nothing is renamed. The
      alias table is the one stored in the settings. */
  function Rename(current: string, newName: string, prefix: string, suffix: string, autoSuffix: bool,
                  indexing: bool, indexPadding: int, startIndex: nat,
                  node: Suffixes.SceneNode, aliases: map<string, string>, taken: set<string>): (r: Option<string>)
    ensures r.None? <==> newName == ""
    ensures r.Some? ==> StartsWith(r.value, BaseName(prefix, newName))
    ensures r.Some? && autoSuffix ==> EndsWith(r.value, SuffixPart(Suffixes.LegacySuffix(node, aliases)))
    ensures r.Some? && !autoSuffix ==> EndsWith(r.value, SuffixPart(suffix))
    ensures r.Some? && !indexing ==>
      r.value == BaseName(prefix, newName) + SuffixPart(if autoSuffix then Suffixes.LegacySuffix(node, aliases) else suffix)
    ensures r.Some? && indexing ==>
      ProbedName(BaseName(prefix, newName), indexPadding + 1,
                 SuffixPart(if autoSuffix then Suffixes.LegacySuffix(node, aliases) else suffix),
                 startIndex, taken, current, r.value)
  {
    if newName == "" then None
    else
      var base := BaseName(prefix, newName);
      var chosen := if autoSuffix then Suffixes.LegacySuffix(node, aliases) else suffix;
      var full := GenName(current, base, chosen, indexing, indexPadding + 1, startIndex, taken);
      assert StartsWith(full, base) && EndsWith(full, SuffixPart(chosen));
      Some(full)
  }

  /** The scene's names once the object called `current` is renamed to `r`. */
  function AfterRename(taken: set<string>, current: string, r: string): set<string> {
    taken - {current} + {r}
  }

  /** Running the indexed rename again on the renamed object gives back the
      name it now holds: the self-name check makes the rename idempotent. */
  lemma GenNameIdempotent(current: string, name: string, suffix: string, padding: int,
                          start: nat, taken: set<string>)
    ensures var r := GenName(current, name, suffix, true, padding, start, taken);
      GenName(r, name, suffix, true, padding, start, AfterRename(taken, current, r)) == r
  {
    var sfx := SuffixPart(suffix);
    var cand := Candidates(name, padding, sfx);
    CandidatesInjective(name, padding, sfx, start);
    var k := Probing.FirstStop(cand, taken, Some(current), start);
    assert GenName(current, name, suffix, true, padding, start, taken) == cand(k);
    Probing.FirstStopAfterSelfRename(cand, taken, current, start);
  }

  /** With "foo_00" and "foo_01" taken and padding 2,
      the first free name is "foo_02". */
  lemma ProbeSkipsTakenNames(taken: set<string>)
    requires taken == {"foo_00", "foo_01"}
    ensures GenName("bar", "foo_", "", true, 2, 0, taken) == "foo_02"
  {
    var cand := Candidates("foo_", 2, "");
    CandidatesInjective("foo_", 2, "", 0);
    TwoDigitCandidates(cand);
    Probing.FirstStopUnique(cand, taken, Some("bar"), 0, 2);
  }

  lemma TwoDigitCandidates(cand: nat -> string)
    requires cand == Candidates("foo_", 2, "")
    ensures cand(0) == "foo_00" && cand(1) == "foo_01" && cand(2) == "foo_02"
  {
    Digits.PadOneDigit(0);
    Digits.PadOneDigit(1);
    Digits.PadOneDigit(2);
  }
}

=== FILE: pattern.dfy ===
/** The token pattern of a template: Python's `string.Formatter().parse`
    (tokenising) and `str.format_map` (substitution), restricted to plain
    field names and the `{{` / `}}` escapes.

    A pattern is a sequence of segments: one literal character, or a field
    `{name}`. Everything between the braces is the field name. */
module Pattern {

  import opened Results
  import opened Text
  import Digits

  datatype Segment = Lit(c: char) | Field(name: string)

  datatype PatternError =
    | Malformed               // ValueError from the format-string parser
    | PositionalField         // ValueError: `{}` or `{0}` under format_map
    | MissingToken(name: string) // KeyError for the first unresolved field

  /* ----- printing: the partner of the parser ----- */

  /** The pattern text a segment comes from: braces in literals are doubled. */
  function Show(g: Segment): string {
    match g
    case Lit(c) => if c == '{' || c == '}' then [c, c] else [c]
    case Field(n) => "{" + n + "}"
  }

  function Unparse(segs: seq<Segment>): string {
    if segs == [] then "" else Show(segs[0]) + Unparse(segs[1..])
  }

  /** A field name the parser can produce: no braces inside. */
  predicate BraceFree(n: string) {
    '{' !in n && '}' !in n
  }

  predicate WellFormed(segs: seq<Segment>) {
    forall k :: 0 <= k < |segs| && segs[k].Field? ==> BraceFree(segs[k].name)
  }

  lemma {:induction false} UnparseAppend(a: seq<Segment>, b: seq<Segment>)
    ensures Unparse(a + b) == Unparse(a) + Unparse(b)
    decreases |a|
  {
    if a == [] {
      assert a + b == b;
    } else {
      assert (a + b)[0] == a[0];
      assert (a + b)[1..] == a[1..] + b;
      UnparseAppend(a[1..], b);
    }
  }

  /* ----- parsing ----- */

  /** Position of the first '}' in `s`, if any. */
  function CloseAt(s: string): (r: Option<nat>)
    ensures r.Some? ==> r.value < |s| && s[r.value] == '}' && '}' !in s[..r.value]
    ensures r.None? ==> '}' !in s
  {
    if s == [] then None
    else if s[0] == '}' then Some(0)
    else match CloseAt(s[1..])
      case None => None
      case Some(j) =>
        assert s[..j + 1] == [s[0]] + s[1..][..j];
        Some(j + 1)
  }

  function Cons(g: Segment, r: Result<seq<Segment>, PatternError>): Result<seq<Segment>, PatternError> {
    match r
    case Ok(t) => Ok([g] + t)
    case Err(e) => Err(e)
  }

  lemma ConsWellFormed(g: Segment, t: seq<Segment>)
    requires WellFormed(t)
    requires g.Field? ==> BraceFree(g.name)
    ensures WellFormed([g] + t)
    ensures Unparse([g] + t) == Show(g) + Unparse(t)
  {
    assert ([g] + t)[1..] == t;
    forall k | 0 <= k < |[g] + t| && ([g] + t)[k].Field?
      ensures BraceFree(([g] + t)[k].name)
    {
      if k > 0 {
        assert ([g] + t)[k] == t[k - 1];
      }
    }
  }

  lemma SplitField(s: string, j: nat)
    requires j + 1 < |s| && s[0] == '{' && s[j + 1] == '}'
    ensures s == "{" + s[1..j + 1] + "}" + s[j + 2..]
  {
  }

  /** `Formatter().parse(s)`: succeeds exactly on texts that print back from
      well-formed segments; a lone '{' or '}', an unclosed field, or a '{'
      inside a field name is a ValueError. */
  function Parse(s: string): (r: Result<seq<Segment>, PatternError>)
    ensures r.Ok? ==> WellFormed(r.value) && Unparse(r.value) == s
    ensures r.Err? ==> r.error == Malformed
    decreases |s|, 1
  {
    if s == [] then Ok([])
    else if s[0] == '{' then
      if |s| > 1 && s[1] == '{' then
        var r := Parse(s[2..]);
        if r.Ok? then
          ConsWellFormed(Lit('{'), r.value);
          assert s == "{{" + s[2..];
          Cons(Lit('{'), r)
        else Cons(Lit('{'), r)
      else ParseField(s)
    else if s[0] == '}' then
      if |s| > 1 && s[1] == '}' then
        var r := Parse(s[2..]);
        if r.Ok? then
          ConsWellFormed(Lit('}'), r.value);
          assert s == "}}" + s[2..];
          Cons(Lit('}'), r)
        else Cons(Lit('}'), r)
      else Err(Malformed)
    else
      var r := Parse(s[1..]);
      if r.Ok? then
        ConsWellFormed(Lit(s[0]), r.value);
        assert s == [s[0]] + s[1..];
        Cons(Lit(s[0]), r)
      else Cons(Lit(s[0]), r)
  }

  /** A field `{name}` at the start of `s`, then the rest of the text. */
  function ParseField(s: string): (r: Result<seq<Segment>, PatternError>)
    requires |s| > 0 && s[0] == '{'
    ensures r.Ok? ==> WellFormed(r.value) && Unparse(r.value) == s
    ensures r.Err? ==> r.error == Malformed
    decreases |s|, 0
  {
    match CloseAt(s[1..])
    case None => Err(Malformed)
    case Some(j) =>
      var name := s[1..j + 1];
      assert name == s[1..][..j];
      if '{' in name then Err(Malformed)
      else
        var r := Parse(s[j + 2..]);
        if r.Ok? then
          ConsWellFormed(Field(name), r.value);
          SplitField(s, j);
          Cons(Field(name), r)
        else Cons(Field(name), r)
  }

  lemma {:induction false} CloseAtPlain(n: string, t: string)
    requires '}' !in n
    ensures CloseAt(n + "}" + t) == Some(|n|)
    decreases |n|
  {
    if n != [] {
      assert (n + "}" + t)[1..] == n[1..] + "}" + t;
      CloseAtPlain(n[1..], t);
    }
  }

  /** Parsing a printed literal in front of parsable text. */
  lemma ParseLitStep(c: char, u: string, rest: seq<Segment>)
    requires Parse(u) == Ok(rest)
    ensures Parse(Show(Lit(c)) + u) == Ok([Lit(c)] + rest)
  {
    var s := Show(Lit(c)) + u;
    if c == '{' || c == '}' {
      assert s[2..] == u;
    } else {
      assert s[1..] == u;
    }
  }

  /** Parsing a printed field in front of parsable text. */
  lemma ParseFieldStep(n: string, u: string, rest: seq<Segment>)
    requires BraceFree(n)
    requires Parse(u) == Ok(rest)
    ensures Parse(Show(Field(n)) + u) == Ok([Field(n)] + rest)
  {
    var s := Show(Field(n)) + u;
    assert s[1..] == n + "}" + u;
    CloseAtPlain(n, u);
    assert s[1..|n| + 1] == n;
    assert s[|n| + 2..] == u;
    if n != [] {
      assert s[1] == n[0];
    }
  }

  /** Printing well-formed segments and parsing the text gives them back. */
  lemma {:induction false} ParseUnparse(segs: seq<Segment>)
    requires WellFormed(segs)
    ensures Parse(Unparse(segs)) == Ok(segs)
    decreases |segs|
  {
    if segs != [] {
      var g, rest := segs[0], segs[1..];
      assert segs == [g] + rest;
      assert WellFormed(rest) by {
        forall k | 0 <= k < |rest| && rest[k].Field?
          ensures BraceFree(rest[k].name)
        {
          assert rest[k] == segs[k + 1];
        }
      }
      ParseUnparse(rest);
      assert Unparse(segs) == Show(g) + Unparse(rest);
      match g
      case Lit(c) =>
        ParseLitStep(c, Unparse(rest), rest);
      case Field(n) =>
        assert BraceFree(segs[0].name);
        ParseFieldStep(n, Unparse(rest), rest);
    }
  }

  /* ----- tokens ----- */

  /** `get_tokens()`: the non-empty field names in order of appearance,
      duplicates kept; literals, escapes and `{}` contribute nothing. */
  function Tokens(segs: seq<Segment>): (r: seq<string>)
    ensures |r| <= |segs|
    ensures forall n :: n in r <==> n != "" && Field(n) in segs
  {
    if segs == [] then []
    else
      var rest := Tokens(segs[1..]);
      assert forall n :: Field(n) in segs <==> Field(n) == segs[0] || Field(n) in segs[1..];
      if segs[0].Field? && segs[0].name != "" then [segs[0].name] + rest else rest
  }

  /** Tokens of a concatenation keep the order of both halves. */
  lemma {:induction false} TokensAppend(a: seq<Segment>, b: seq<Segment>)
    ensures Tokens(a + b) == Tokens(a) + Tokens(b)
    decreases |a|
  {
    if a == [] {
      assert a + b == b;
    } else {
      assert (a + b)[0] == a[0];
      assert (a + b)[1..] == a[1..] + b;
      TokensAppend(a[1..], b);
    }
  }

  /** A single segment contributes its field name, unless it is a literal
      or an empty field; with `TokensAppend` this fixes order and repeats. */
  lemma TokensSingle(g: Segment)
    ensures Tokens([g]) == if g.Field? && g.name != "" then [g.name] else []
  {
    assert [g][1..] == [];
  }

  /** `get_tokens()` on a pattern text. */
  function GetTokens(mapping: string): (r: Result<seq<string>, PatternError>)
    ensures r.Ok? <==> Parse(mapping).Ok?
    ensures r.Ok? ==> forall n :: n in r.value <==> n != "" && Field(n) in Parse(mapping).value
  {
    var segs :- Parse(mapping);
    Ok(Tokens(segs))
  }

  /** `is_indexed`: the reserved field `index` is among the tokens. */
  function IsIndexed(mapping: string): (r: Result<bool, PatternError>)
    ensures r.Ok? <==> Parse(mapping).Ok?
    ensures r.Ok? ==> (r.value <==> Field("index") in Parse(mapping).value)
  {
    var tokens :- GetTokens(mapping);
    Ok("index" in tokens)
  }

  /* ----- substitution ----- */

  /** `{}` and all-digit field names are positional; format_map has no
      positional arguments, so they always fail. */
  predicate Positional(n: string) {
    Digits.AllDigits(n)
  }

  /** Every field is a keyword present in `values`. */
  predicate Resolvable(segs: seq<Segment>, values: map<string, string>) {
    forall k :: 0 <= k < |segs| && segs[k].Field? ==>
      !Positional(segs[k].name) && segs[k].name in values
  }

  function Piece(g: Segment, values: map<string, string>): string {
    match g
    case Lit(c) => [c]
    case Field(n) => if n in values then values[n] else ""
  }

  /** The substituted text, defined for any values (unresolved fields
      contribute nothing); `Render` is the failing operation. */
  function Fill(segs: seq<Segment>, values: map<string, string>): string {
    if segs == [] then "" else Piece(segs[0], values) + Fill(segs[1..], values)
  }

  /** The error `format_map` raises at a field that does not resolve. */
  function FieldError(n: string): PatternError {
    if Positional(n) then PositionalField else MissingToken(n)
  }

  /** Field k is the first field of `segs` that does not resolve. */
  ghost predicate FailsFirstAt(segs: seq<Segment>, values: map<string, string>, k: int) {
    && 0 <= k < |segs| && segs[k].Field?
    && (Positional(segs[k].name) || segs[k].name !in values)
    && Resolvable(segs[..k], values)
  }

  /** A first failing field of the tail is the first failing field of the
      whole, one place on, when the head resolves. */
  lemma FailsFirstShift(segs: seq<Segment>, values: map<string, string>, e: PatternError)
    requires segs != []
    requires segs[0].Field? ==> !Positional(segs[0].name) && segs[0].name in values
    requires exists k :: FailsFirstAt(segs[1..], values, k) && e == FieldError(segs[1..][k].name)
    ensures exists k :: FailsFirstAt(segs, values, k) && e == FieldError(segs[k].name)
  {
    var k :| FailsFirstAt(segs[1..], values, k) && e == FieldError(segs[1..][k].name);
    assert segs[..k + 1] == [segs[0]] + segs[1..][..k];
    assert FailsFirstAt(segs, values, k + 1);
  }

  /** `mapping.format_map(values)`: fields substituted left to right; the
      first positional field or missing key aborts the whole render. */
  function Render(segs: seq<Segment>, values: map<string, string>): (r: Result<string, PatternError>)
    ensures r.Ok? <==> Resolvable(segs, values)
    ensures r.Ok? ==> r.value == Fill(segs, values)
    ensures r.Err? ==> exists k :: FailsFirstAt(segs, values, k) && r.error == FieldError(segs[k].name)
    ensures r.Err? && r.error.MissingToken? ==> Field(r.error.name) in segs && r.error.name !in values
  {
    if segs == [] then Ok("")
    else
      var g := segs[0];
      assert forall k :: 1 <= k < |segs| ==> segs[k] == segs[1..][k - 1];
      if g.Field? && Positional(g.name) then
        assert FailsFirstAt(segs, values, 0);
        Err(PositionalField)
      else if g.Field? && g.name !in values then
        assert FailsFirstAt(segs, values, 0);
        Err(MissingToken(g.name))
      else
        match Render(segs[1..], values)
        case Err(e) =>
          FailsFirstShift(segs, values, e);
          Err(e)
        case Ok(rest) => Ok(Piece(g, values) + rest)
  }

  /* ----- the index slot ----- */

  /** A longer index text gives a longer render, strictly so when the
      pattern references `index`. */
  lemma {:induction false} FillIndexLonger(segs: seq<Segment>, values: map<string, string>, a: string, b: string)
    requires |a| <= |b|
    ensures |Fill(segs, values["index" := a])| <= |Fill(segs, values["index" := b])|
    ensures Field("index") in segs && |a| < |b| ==>
      |Fill(segs, values["index" := a])| < |Fill(segs, values["index" := b])|
    decreases |segs|
  {
    if segs != [] {
      var va, vb := values["index" := a], values["index" := b];
      FillIndexLonger(segs[1..], values, a, b);
      assert Field("index") in segs ==> segs[0] == Field("index") || Field("index") in segs[1..];
      assert |Fill(segs, va)| == |Piece(segs[0], va)| + |Fill(segs[1..], va)|;
      assert |Fill(segs, vb)| == |Piece(segs[0], vb)| + |Fill(segs[1..], vb)|;
    }
  }

  /** With equally long index texts, equal renders force equal indices. */
  lemma {:induction false} FillIndexSameLength(segs: seq<Segment>, values: map<string, string>, a: string, b: string)
    requires |a| == |b| && Field("index") in segs
    requires Fill(segs, values["index" := a]) == Fill(segs, values["index" := b])
    ensures a == b
    decreases |segs|
  {
    var va, vb := values["index" := a], values["index" := b];
    var pa, pb := Piece(segs[0], va), Piece(segs[0], vb);
    var ra, rb := Fill(segs[1..], va), Fill(segs[1..], vb);
    assert pa + ra == pb + rb;
    if segs[0] == Field("index") {
      assert pa == (pa + ra)[..|a|] == (pb + rb)[..|b|] == pb;
    } else {
      assert Field("index") in segs[1..];
      assert pa == pb;
      assert ra == (pa + ra)[|pa|..] == (pb + rb)[|pb|..] == rb;
      FillIndexSameLength(segs[1..], values, a, b);
    }
  }

  /** A pattern that references `index` renders distinct index texts to
      distinct names, whatever the other values are. */
  lemma FillIndexInjective(segs: seq<Segment>, values: map<string, string>, a: string, b: string)
    requires Field("index") in segs
    requires a != b
    ensures Fill(segs, values["index" := a]) != Fill(segs, values["index" := b])
  {
    if |a| == |b| {
      if Fill(segs, values["index" := a]) == Fill(segs, values["index" := b]) {
        FillIndexSameLength(segs, values, a, b);
      }
    } else if |a| < |b| {
      FillIndexLonger(segs, values, a, b);
    } else {
      FillIndexLonger(segs, values, b, a);
    }
  }
}

=== FILE: probing.dfy ===
/** Linear probing for a free name, shared by both revisions of the tool.

    Candidates are produced by a rendering function of the index. The probe
    starts at `start` and stops at the first candidate that is free (not in
    `taken`) or, when the object's current name is given, equal to it.

    The scene's existing names are a finite set, and distinct indices render
    to distinct names, so at most |taken| candidates can be skipped: that is
    the termination argument. */
module Probing {

  import opened Results

  /** The stopping rule: the name is free, or it is the object's own name. */
  predicate Stops(name: string, taken: set<string>, current: Option<string>) {
    name !in taken || current == Some(name)
  }

  ghost predicate InjectiveFrom(cand: nat -> string, start: nat) {
    forall i: nat, j: nat :: start <= i < j ==> cand(i) != cand(j)
  }

  ghost function Rendered(cand: nat -> string, start: nat, n: nat): set<string> {
    set j: nat | start <= j < n :: cand(j)
  }

  /** An injective rendering of [start, n) yields n - start distinct names. */
  lemma {:induction false} RenderedSize(cand: nat -> string, start: nat, n: nat)
    requires start <= n
    requires InjectiveFrom(cand, start)
    ensures |Rendered(cand, start, n)| == n - start
    decreases n - start
  {
    if n > start {
      RenderedSize(cand, start, n - 1);
      assert Rendered(cand, start, n) == Rendered(cand, start, n - 1) + {cand(n - 1)};
      assert cand(n - 1) !in Rendered(cand, start, n - 1);
    } else {
      assert Rendered(cand, start, n) == {};
    }
  }

  /** Only |taken| consecutive candidates can all be taken. */
  lemma TakenBound(cand: nat -> string, taken: set<string>, start: nat, n: nat)
    requires start <= n
    requires InjectiveFrom(cand, start)
    requires forall j: nat :: start <= j < n ==> cand(j) in taken
    ensures n - start <= |taken|
  {
    var seen := Rendered(cand, start, n);
    RenderedSize(cand, start, n);
    assert seen <= taken;
    assert taken == seen + (taken - seen);
    assert |taken| == |seen| + |taken - seen|;
  }

  /** The probe from index `i`, every earlier candidate being taken. */
  function ProbeFrom(cand: nat -> string, taken: set<string>, current: Option<string>, start: nat, i: nat): (k: nat)
    requires start <= i
    requires InjectiveFrom(cand, start)
    requires forall j: nat :: start <= j < i ==> cand(j) in taken
    ensures i <= k
    ensures Stops(cand(k), taken, current)
    ensures forall j: nat :: i <= j < k ==> !Stops(cand(j), taken, current)
    decreases |taken| - (i - start)
  {
    if Stops(cand(i), taken, current) then i
    else
      TakenBound(cand, taken, start, i + 1);
      ProbeFrom(cand, taken, current, start, i + 1)
  }

  /** The lowest index at or above `start` whose candidate stops the probe. */
  function FirstStop(cand: nat -> string, taken: set<string>, current: Option<string>, start: nat): (k: nat)
    requires InjectiveFrom(cand, start)
    ensures start <= k
    ensures Stops(cand(k), taken, current)
    ensures forall j: nat :: start <= j < k ==> cand(j) in taken && current != Some(cand(j))
  {
    ProbeFrom(cand, taken, current, start, start)
  }

  /** The stopping index is determined by the stopping rule alone: any index
      that stops the probe and has only non-stopping predecessors is it. */
  lemma FirstStopUnique(cand: nat -> string, taken: set<string>, current: Option<string>, start: nat, m: nat)
    requires InjectiveFrom(cand, start)
    requires start <= m && Stops(cand(m), taken, current)
    requires forall j: nat :: start <= j < m ==> !Stops(cand(j), taken, current)
    ensures FirstStop(cand, taken, current, start) == m
  {
  }

  /** Once the object called `current` has been renamed to the candidate the
      probe chose, probing again with that name as the current one picks the
      same index: the earlier candidates are still taken and differ from it. */
  lemma FirstStopAfterSelfRename(cand: nat -> string, taken: set<string>, current: string, start: nat)
    requires InjectiveFrom(cand, start)
    ensures var k := FirstStop(cand, taken, Some(current), start);
      FirstStop(cand, taken - {current} + {cand(k)}, Some(cand(k)), start) == k
  {
    var k := FirstStop(cand, taken, Some(current), start);
    var after := taken - {current} + {cand(k)};
    forall j: nat | start <= j < k
      ensures !Stops(cand(j), after, Some(cand(k)))
    {
      assert cand(j) in taken && cand(j) != current;
      assert cand(j) != cand(k);
    }
    FirstStopUnique(cand, after, Some(cand(k)), start, k);
  }
}

=== FILE: results.dfy ===
/** Failure-compatible wrappers shared by the whole model.
    - Option<T> stands for Python's "value or None".
    - Result<T, E> stands for "value, or the exception the Python code would raise".
 */
module Results {

  datatype Option<+T> = None | Some(value: T) {

    /** dict.get(key, default) style access */
    function GetOr(default: T): T {
      match this
      case Some(v) => v
      case None => default
    }
  }

  datatype Result<+T, +E> = Ok(value: T) | Err(error: E) {

    predicate IsFailure() {
      Err?
    }

    function PropagateFailure<U>(): Result<U, E>
      requires Err?
    {
      Err(error)
    }

    function Extract(): T
      requires Ok?
    {
      value
    }
  }
}

=== FILE: suffixes.dfy ===
/** Type-to-suffix resolution, in the two revisions of the tool:
    `Template.get_suffix` (template.py) and `RenameUtils.getSuffix`
    (renameFn.py). The scene is reached only through the node's own type and
    its children's types, in the order `listRelatives(node, c=1)` gives them. */
module Suffixes {

  import opened Text

  datatype SceneNode = SceneNode(nodeType: string, childTypes: seq<string>)

  /** The type whose alias is looked up: a transform with children stands
      for its first child; anything else for itself. */
  function LookupType(node: SceneNode): string {
    if node.nodeType == "transform" && |node.childTypes| > 0 then node.childTypes[0] else node.nodeType
  }

  /** Template revision: alias with fallback "obj", upper-cased after the
      lookup when the template asks for it. */
  function TemplateSuffix(node: SceneNode, aliases: map<string, string>, upperCase: bool): (r: string)
    ensures var t := LookupType(node);
      && (t in aliases && !upperCase ==> r == aliases[t])
      && (t in aliases && upperCase ==> r == ToUpper(aliases[t]))
      && (t !in aliases ==> r == if upperCase then "OBJ" else "obj")
    ensures upperCase ==> forall k :: 0 <= k < |r| ==> !('a' <= r[k] <= 'z')
  {
    var t := LookupType(node);
    var suffix := if t in aliases then aliases[t] else "obj";
    if upperCase then ToUpper(suffix) else suffix
  }

  /** Legacy revision: alias with fallback "OBJ" (a warning, not an error),
      no case conversion. */
  function LegacySuffix(node: SceneNode, aliases: map<string, string>): (r: string)
    ensures var t := LookupType(node);
      && (t in aliases ==> r == aliases[t])
      && (t !in aliases ==> r == "OBJ")
  {
    var t := LookupType(node);
    if t in aliases then aliases[t] else "OBJ"
  }

  /** Both revisions look up a transform's first child when it has one, and
      the node's own type otherwise (so a childless transform is "transform"). */
  lemma TransformFallback(node: SceneNode, aliases: map<string, string>)
    ensures node.nodeType == "transform" && |node.childTypes| > 0 && node.childTypes[0] in aliases ==>
      && LegacySuffix(node, aliases) == aliases[node.childTypes[0]]
      && TemplateSuffix(node, aliases, false) == aliases[node.childTypes[0]]
    ensures (node.nodeType != "transform" || node.childTypes == []) && node.nodeType in aliases ==>
      && LegacySuffix(node, aliases) == aliases[node.nodeType]
      && TemplateSuffix(node, aliases, false) == aliases[node.nodeType]
  {
  }

  /** The two revisions agree up to case: the upper-cased template suffix is
      the upper-cased legacy suffix, and on a known type without upper-casing
      they are equal. */
  lemma {:induction false} RevisionsAgreeUpToCase(node: SceneNode, aliases: map<string, string>)
    ensures TemplateSuffix(node, aliases, true) == ToUpper(LegacySuffix(node, aliases))
    ensures LookupType(node) in aliases ==> TemplateSuffix(node, aliases, false) == LegacySuffix(node, aliases)
  {
    if LookupType(node) !in aliases {
      assert ToUpper("OBJ") == "OBJ";
    }
  }
}

=== FILE: template_engine.dfy ===
/** The template revision of the naming engine (template.py, class Template).

    A template is a JSON record whose `mapping` is a token pattern such as
    "{side}_{name}_{index}_{suffix}". `generate_name` substitutes the
    caller's token values into it, first adding a suffix derived from the
    node's type when the pattern asks for one and the caller gave none. If
    the pattern has an `index` field it probes indices upward from
    `index_start`, rendered `str(i).zfill(index_padding + 1)`, until the
    name is not already in the scene.

    The scene's existing names are the set `taken`. Python updates the
    caller's dict in place; on success the dict as the call leaves it is
    returned as `tokens`, and on failure only the error is returned. */
module TemplateEngine {

  import opened Results
  import opened Text
  import Digits
  import Pattern
  import Probing
  import Suffixes
  import TemplateFiles

  /** The JSON record of a template; a key absent from the file is None. */
  datatype TemplateData = TemplateData(
    mapping: Option<string>,
    suffixAliases: Option<map<string, string>>,
    upperCaseSuffix: Option<bool>,
    indexStart: Option<nat>,
    indexPadding: Option<int>)

  datatype Template = Template(filePath: string, name: string, data: TemplateData)

  datatype TemplateError =
    | MissingMapping                       // KeyError on data["mapping"]
    | BadPattern(cause: Pattern.PatternError)

  /** The result of `generate_name`: the name, and the caller's token dict
      as the call leaves it. */
  datatype Generated = Generated(name: string, tokens: map<string, string>)

  /* ----- the record and its defaults ----- */

  /** `Template(file_path)`, the JSON already read into `data`. */
  function Load(filePath: string, data: TemplateData): Template {
    Template(filePath, TemplateFiles.TemplateName(filePath), data)
  }

  predicate IsDefault(t: Template) {
    t.name == "default"
  }

  /** `is_default` on a freshly loaded template depends only on the file's
      basename: "default" itself, or "default." followed by anything. */
  lemma IsDefaultLoaded(filePath: string, data: TemplateData)
    ensures IsDefault(Load(filePath, data)) <==>
      var b := TemplateFiles.Basename(filePath);
      b == "default" || StartsWith(b, "default.")
  {
    TemplateFiles.DefaultNameIff(filePath);
  }

  function SuffixAliases(d: TemplateData): (r: map<string, string>)
    ensures d.suffixAliases.None? ==> r == map[]
    ensures d.suffixAliases.Some? ==> r == d.suffixAliases.value
  {
    d.suffixAliases.GetOr(map[])
  }

  function UpperCaseSuffix(d: TemplateData): (r: bool)
    ensures d.upperCaseSuffix.None? ==> !r
    ensures d.upperCaseSuffix.Some? ==> r == d.upperCaseSuffix.value
  {
    d.upperCaseSuffix.GetOr(false)
  }

  function IndexStart(d: TemplateData): (r: nat)
    ensures d.indexStart.None? ==> r == 0
    ensures d.indexStart.Some? ==> r == d.indexStart.value
  {
    d.indexStart.GetOr(0)
  }

  function IndexPadding(d: TemplateData): (r: int)
    ensures d.indexPadding.None? ==> r == 1
    ensures d.indexPadding.Some? ==> r == d.indexPadding.value
  {
    d.indexPadding.GetOr(1)
  }

  /** Rendered index width: one more than the stored padding. */
  function Width(d: TemplateData): int {
    IndexPadding(d) + 1
  }

  /** The `mapping` setter: reading the mapping back gives the new pattern,
      and every other key of the record is as it was. */
  function SetMapping(d: TemplateData, pattern: string): (r: TemplateData)
    ensures r.mapping == Some(pattern)
    ensures r.suffixAliases == d.suffixAliases && r.upperCaseSuffix == d.upperCaseSuffix
    ensures r.indexStart == d.indexStart && r.indexPadding == d.indexPadding
  {
    d.(mapping := Some(pattern))
  }

  /* ----- suffix injection ----- */

  /** The injection rule: a node is given, the mapping TEXT contains
      "suffix" anywhere, and the caller supplied no "suffix" value. */
  predicate InjectsSuffix(mapping: string, tokens: map<string, string>, node: Option<Suffixes.SceneNode>) {
    node.Some? && Contains(mapping, "suffix") && "suffix" !in tokens
  }

  function DerivedSuffix(d: TemplateData, node: Suffixes.SceneNode): string {
    Suffixes.TemplateSuffix(node, SuffixAliases(d), UpperCaseSuffix(d))
  }

  function PrepareTokens(d: TemplateData, mapping: string, tokens: map<string, string>, node: Option<Suffixes.SceneNode>): map<string, string> {
    if InjectsSuffix(mapping, tokens, node) then tokens["suffix" := DerivedSuffix(d, node.value)] else tokens
  }

  /** The substring test over-approximates "the pattern has a {suffix}
      field": whenever the field is there, the test fires. */
  lemma SuffixFieldIsDetected(mapping: string)
    ensures Pattern.Parse(mapping).Ok? && Pattern.Field("suffix") in Pattern.Parse(mapping).value ==>
      Contains(mapping, "suffix")
  {
    if Pattern.Parse(mapping).Ok? && Pattern.Field("suffix") in Pattern.Parse(mapping).value {
      var segs := Pattern.Parse(mapping).value;
      assert mapping == Pattern.Unparse(segs);
      var k :| 0 <= k < |segs| && segs[k] == Pattern.Field("suffix");
      FieldTextOccurs(segs, k);
    }
  }

  lemma {:induction false} FieldTextOccurs(segs: seq<Pattern.Segment>, k: nat)
    requires k < |segs| && segs[k].Field?
    ensures Contains(Pattern.Unparse(segs), segs[k].name)
    decreases k
  {
    var head, rest := Pattern.Show(segs[0]), Pattern.Unparse(segs[1..]);
    assert Pattern.Unparse(segs) == head + rest;
    if k == 0 {
      assert head + rest == "{" + segs[0].name + ("}" + rest);
      ContainsMiddle("{", segs[0].name, "}" + rest);
    } else {
      assert segs[1..][k - 1] == segs[k];
      FieldTextOccurs(segs[1..], k - 1);
      ContainsExtend(head, rest, segs[k].name);
    }
  }

  /* ----- indexed names ----- */

  /** `_generate_indexed_name` for index i: the pattern rendered with the
      index slot set to `str(i).zfill(width)`. */
  function Candidates(segs: seq<Pattern.Segment>, tokens: map<string, string>, width: int): nat -> string {
    (i: nat) => Pattern.Fill(segs, tokens["index" := Digits.Pad(i, width)])
  }

  /** A pattern with an `index` field renders distinct indices to distinct
      names: this bounds the probe by the number of existing names. */
  lemma CandidatesInjective(segs: seq<Pattern.Segment>, tokens: map<string, string>, width: int, start: nat)
    requires Pattern.Field("index") in segs
    ensures Probing.InjectiveFrom(Candidates(segs, tokens, width), start)
  {
    var cand := Candidates(segs, tokens, width);
    forall i: nat, j: nat | start <= i < j
      ensures cand(i) != cand(j)
    {
      assert Digits.ReadDecimal(Digits.Pad(i, width)) != Digits.ReadDecimal(Digits.Pad(j, width));
      Pattern.FillIndexInjective(segs, tokens, Digits.Pad(i, width), Digits.Pad(j, width));
    }
  }

  /** The index slot of `tokens` holds the lowest index at or above `start`
      whose rendered name is not taken, and `name` is that rendering. */
  ghost predicate LowestFree(segs: seq<Pattern.Segment>, tokens: map<string, string>, width: int,
                             start: nat, taken: set<string>, name: string)
  {
    && "index" in tokens && Digits.AllDigits(tokens["index"])
    && var k := Digits.ReadDecimal(tokens["index"]);
    && start <= k
    && tokens["index"] == Digits.Pad(k, width)
    && name == Pattern.Fill(segs, tokens) && name !in taken
    && forall j: nat :: start <= j < k ==> Candidates(segs, tokens, width)(j) in taken
  }

  /** Re-setting the index slot forgets its previous value. */
  lemma ResetIndexSlot(tokens: map<string, string>, a: string, b: string)
    ensures tokens["index" := a]["index" := b] == tokens["index" := b]
  {
  }

  /** The caller's values survive, except the index slot; the only keys
      added are "suffix" and "index". */
  ghost predicate KeepsCallerTokens(before: map<string, string>, after: map<string, string>) {
    && (forall key :: key in before && key != "index" ==> key in after && after[key] == before[key])
    && after.Keys <= before.Keys + {"suffix", "index"}
  }

  /** Setting the index slot does not change which fields resolve. */
  lemma ResolvableAnyIndex(segs: seq<Pattern.Segment>, tokens: map<string, string>, a: string, b: string)
    ensures Pattern.Resolvable(segs, tokens["index" := a]) <==> Pattern.Resolvable(segs, tokens["index" := b])
  {
  }

  /** The probing loop of `generate_name`, from `start`. */
  function IndexedName(segs: seq<Pattern.Segment>, tokens: map<string, string>, width: int,
                       start: nat, taken: set<string>): (g: Generated)
    requires Pattern.Field("index") in segs
    ensures LowestFree(segs, g.tokens, width, start, taken, g.name)
    ensures g.tokens == tokens["index" := g.tokens["index"]]
  {
    CandidatesInjective(segs, tokens, width, start);
    var cand := Candidates(segs, tokens, width);
    var k := Probing.FirstStop(cand, taken, None, start);
    var t := tokens["index" := Digits.Pad(k, width)];
    assert forall j: nat :: Candidates(segs, t, width)(j) == cand(j) by {
      forall j: nat
        ensures Candidates(segs, t, width)(j) == cand(j)
      {
        ResetIndexSlot(tokens, Digits.Pad(k, width), Digits.Pad(j, width));
      }
    }
    ResetIndexSlot(tokens, Digits.Pad(k, width), Digits.Pad(k, width));
    Generated(cand(k), t)
  }

  /* ----- generate_name ----- */

  /** `generate_name(tokens_map, node)` against the existing names `taken`. */
  function GenerateName(d: TemplateData, tokens: map<string, string>, node: Option<Suffixes.SceneNode>,
                        taken: set<string>): (r: Result<Generated, TemplateError>)
    // errors: a missing mapping, then a malformed pattern
    ensures d.mapping.None? ==> r == Err(MissingMapping)
    ensures d.mapping.Some? && Pattern.Parse(d.mapping.value).Err? ==> r == Err(BadPattern(Pattern.Malformed))
    ensures r.Ok? ==> d.mapping.Some? && Pattern.Parse(d.mapping.value).Ok?
    // rendering fails exactly when a field is positional or has no value
    ensures d.mapping.Some? && Pattern.Parse(d.mapping.value).Ok? ==>
      var segs := Pattern.Parse(d.mapping.value).value;
      var t := PrepareTokens(d, d.mapping.value, tokens, node);
      (r.Ok? <==> Pattern.Resolvable(segs, if Pattern.Field("index") in segs then t["index" := ""] else t))
    // the returned name is the rendering of the returned tokens
    ensures r.Ok? ==> Pattern.Render(Pattern.Parse(d.mapping.value).value, r.value.tokens) == Ok(r.value.name)
    // non-indexed: the prepared tokens as they are, no existence check
    ensures r.Ok? && Pattern.Field("index") !in Pattern.Parse(d.mapping.value).value ==>
      r.value.tokens == PrepareTokens(d, d.mapping.value, tokens, node)
    // indexed: only the index slot changes, and it holds the lowest free index at or above index_start
    ensures r.Ok? && Pattern.Field("index") in Pattern.Parse(d.mapping.value).value ==>
      && r.value.tokens == PrepareTokens(d, d.mapping.value, tokens, node)["index" := r.value.tokens["index"]]
      && LowestFree(Pattern.Parse(d.mapping.value).value, r.value.tokens, Width(d), IndexStart(d), taken, r.value.name)
    // a render failure is format_map's error for the first unresolved field (at index_start when indexed)
    ensures d.mapping.Some? && Pattern.Parse(d.mapping.value).Ok? && r.Err? ==>
      var segs := Pattern.Parse(d.mapping.value).value;
      var t := PrepareTokens(d, d.mapping.value, tokens, node);
      var first := Pattern.Render(segs, if Pattern.Field("index") in segs then t["index" := Digits.Pad(IndexStart(d), Width(d))] else t);
      first.Err? && r == Err(BadPattern(first.error))
  {
    match d.mapping
    case None => Err(MissingMapping)
    case Some(mapping) =>
      var t := PrepareTokens(d, mapping, tokens, node);
      match Pattern.Parse(mapping)
      case Err(e) => Err(BadPattern(e))
      case Ok(segs) =>
        if "index" !in Pattern.Tokens(segs) then PlainName(segs, t)
        else IndexedRender(segs, t, Width(d), IndexStart(d), taken)
  }

  /** The non-indexed branch: one render, no existence check. */
  function PlainName(segs: seq<Pattern.Segment>, t: map<string, string>): (r: Result<Generated, TemplateError>)
    ensures r.Ok? <==> Pattern.Resolvable(segs, t)
    ensures r.Ok? ==> r.value == Generated(Pattern.Fill(segs, t), t)
    ensures r.Err? ==> r.error.BadPattern? && r.error.cause != Pattern.Malformed
    ensures r.Err? ==> exists k :: Pattern.FailsFirstAt(segs, t, k) && r.error == BadPattern(Pattern.FieldError(segs[k].name))
  {
    match Pattern.Render(segs, t)
    case Err(e) => Err(BadPattern(e))
    case Ok(name) => Ok(Generated(name, t))
  }

  /** The indexed branch: the first render at `start` reports a missing or
      positional field; otherwise the probe runs. */
  function IndexedRender(segs: seq<Pattern.Segment>, t: map<string, string>, width: int,
                         start: nat, taken: set<string>): (r: Result<Generated, TemplateError>)
    requires Pattern.Field("index") in segs
    ensures r.Ok? <==> Pattern.Resolvable(segs, t["index" := ""])
    ensures r.Ok? ==> LowestFree(segs, r.value.tokens, width, start, taken, r.value.name)
    ensures r.Ok? ==> r.value.tokens == t["index" := r.value.tokens["index"]]
    ensures r.Ok? ==> Pattern.Resolvable(segs, r.value.tokens)
    ensures r.Err? ==> r.error.BadPattern? && r.error.cause != Pattern.Malformed
    // the error is format_map's at the first unresolved field of the render at `start`
    ensures r.Err? ==>
      exists k :: (Pattern.FailsFirstAt(segs, t["index" := Digits.Pad(start, width)], k)
                   && r.error == BadPattern(Pattern.FieldError(segs[k].name)))
  {
    match Pattern.Render(segs, t["index" := Digits.Pad(start, width)])
    case Err(e) => Err(BadPattern(e))
    case Ok(_) =>
      var g := IndexedName(segs, t, width, start, taken);
      ResolvableAnyIndex(segs, t, Digits.Pad(start, width), g.tokens["index"]);
      ResolvableAnyIndex(segs, t, Digits.Pad(start, width), "");
      Ok(g)
  }

  /** The caller's values and the suffix rule, as the dict stands after the
      suffix step. */
  ghost predicate SuffixStep(d: TemplateData, mapping: string, tokens: map<string, string>,
                             node: Option<Suffixes.SceneNode>, out: map<string, string>)
  {
    && KeepsCallerTokens(tokens, out)
    && (InjectsSuffix(mapping, tokens, node) ==> "suffix" in out && out["suffix"] == DerivedSuffix(d, node.value))
    && ("suffix" in tokens ==> "suffix" in out && out["suffix"] == tokens["suffix"])
    && ("suffix" !in tokens && !InjectsSuffix(mapping, tokens, node) ==> "suffix" !in out)
  }

  lemma PrepareTokensStep(d: TemplateData, mapping: string, tokens: map<string, string>, node: Option<Suffixes.SceneNode>)
    ensures SuffixStep(d, mapping, tokens, node, PrepareTokens(d, mapping, tokens, node))
  {
  }

  /** Filling the index slot keeps the suffix step's guarantees. */
  lemma IndexSlotKeepsStep(d: TemplateData, mapping: string, tokens: map<string, string>,
                           node: Option<Suffixes.SceneNode>, t: map<string, string>, v: string)
    requires SuffixStep(d, mapping, tokens, node, t)
    ensures SuffixStep(d, mapping, tokens, node, t["index" := v])
  {
  }

  /** What the call leaves in the caller's dict: every value the caller gave
      survives except the index slot; a suffix is added only by the
      injection rule, and an explicit one is never overwritten; without an
      index field the index slot is left alone. */
  lemma GenerateNameTokens(d: TemplateData, tokens: map<string, string>, node: Option<Suffixes.SceneNode>,
                           taken: set<string>)
    ensures GenerateName(d, tokens, node, taken).Ok? ==>
      var out := GenerateName(d, tokens, node, taken).value.tokens;
      && SuffixStep(d, d.mapping.value, tokens, node, out)
      && (Pattern.Field("index") !in Pattern.Parse(d.mapping.value).value ==>
            ("index" in out <==> "index" in tokens) && ("index" in tokens ==> out["index"] == tokens["index"]))
  {
    if GenerateName(d, tokens, node, taken).Ok? {
      var out := GenerateName(d, tokens, node, taken).value.tokens;
      var t := PrepareTokens(d, d.mapping.value, tokens, node);
      PrepareTokensStep(d, d.mapping.value, tokens, node);
      if Pattern.Field("index") in Pattern.Parse(d.mapping.value).value {
        IndexSlotKeepsStep(d, d.mapping.value, tokens, node, t, out["index"]);
      } else {
        assert out == t;
      }
    }
  }

  /** Without a self-name rule, generating again once the first name exists
      moves on: the second name differs from the first. */
  lemma RerunMovesOn(d: TemplateData, tokens: map<string, string>, node: Option<Suffixes.SceneNode>,
                     taken: set<string>)
    ensures GenerateName(d, tokens, node, taken).Ok? && Pattern.Field("index") in Pattern.Parse(d.mapping.value).value ==>
      var first := GenerateName(d, tokens, node, taken).value.name;
      var again := GenerateName(d, tokens, node, taken + {first});
      again.Ok? && again.value.name != first
  {
  }

  /** In a scene with no names, an indexed template takes `index_start` itself. */
  lemma EmptySceneTakesStart(d: TemplateData, tokens: map<string, string>, node: Option<Suffixes.SceneNode>)
    ensures GenerateName(d, tokens, node, {}).Ok? && Pattern.Field("index") in Pattern.Parse(d.mapping.value).value ==>
      GenerateName(d, tokens, node, {}).value.tokens["index"] == Digits.Pad(IndexStart(d), Width(d))
  {
    if GenerateName(d, tokens, node, {}).Ok? && Pattern.Field("index") in Pattern.Parse(d.mapping.value).value {
      var segs := Pattern.Parse(d.mapping.value).value;
      var g := GenerateName(d, tokens, node, {}).value;
      assert LowestFree(segs, g.tokens, Width(d), IndexStart(d), {}, g.name);
      var k := Digits.ReadDecimal(g.tokens["index"]);
      assert Candidates(segs, g.tokens, Width(d))(IndexStart(d)) !in {};
      assert k == IndexStart(d);
    }
  }

  /** With the default padding of 1, index 0 renders as "00". */
  lemma DefaultPaddingRendersZero(d: TemplateData)
    requires d.indexPadding.None?
    ensures Digits.Pad(0, Width(d)) == "00"
  {
    assert Width(d) == 2;
    Digits.PadOneDigit(0);
  }
}

=== FILE: template_files.dfy ===
/** Path strings around template files (template.py): the template name
    taken from a file path, the path a template is saved to by default, and
    the filter applied to a directory listing. Paths are POSIX paths; the
    file system itself is reached only through a given directory listing. */
module TemplateFiles {

  import opened Text

  /** `os.path.basename`: the text after the last '/'. */
  function Basename(p: string): (b: string)
    ensures '/' !in b
    ensures EndsWith(p, b)
    ensures |b| < |p| ==> p[|p| - |b| - 1] == '/'
  {
    if p == [] then []
    else if p[|p| - 1] == '/' then []
    else
      var q, c := p[..|p| - 1], p[|p| - 1];
      var b := Basename(q);
      assert p[|p| - |b| - 1..] == q[|q| - |b|..] + [c];
      assert |b| < |q| ==> p[|p| - |b| - 2] == q[|q| - |b| - 1];
      b + [c]
  }

  /** `s.split(".")[0]`: the text before the first '.'. */
  function BeforeFirstDot(s: string): (r: string)
    ensures '.' !in r
    ensures StartsWith(s, r)
    ensures |r| < |s| ==> s[|r|] == '.'
  {
    if s == [] then []
    else if s[0] == '.' then []
    else [s[0]] + BeforeFirstDot(s[1..])
  }

  /** The name `Template.__init__` derives from a file path. */
  function TemplateName(path: string): (name: string)
    ensures '.' !in name && '/' !in name
  {
    var b := Basename(path);
    var name := BeforeFirstDot(b);
    assert forall k :: 0 <= k < |name| ==> name[k] == b[k];
    name
  }

  /** `os.path.join(dir, file)`. */
  function Join(dir: string, file: string): string {
    if |file| > 0 && file[0] == '/' then file
    else if dir == [] || dir[|dir| - 1] == '/' then dir + file
    else dir + "/" + file
  }

  /** `get_file_path_from_name`: `<dir>/<name>.json`. */
  function FilePathFromName(dir: string, name: string): string {
    Join(dir, name + ".json")
  }

  /** Appending a character other than '/' extends the basename by it. */
  lemma BasenameSnoc(p: string, c: char)
    requires c != '/'
    ensures Basename(p + [c]) == Basename(p) + [c]
  {
    assert (p + [c])[..|p|] == p;
  }

  /** Text after a '/' (or at the start) that holds no '/' is the basename. */
  lemma {:induction false} BasenameAfterSlash(x: string, f: string)
    requires '/' !in f
    requires x == [] || x[|x| - 1] == '/'
    ensures Basename(x + f) == f
    decreases |f|
  {
    if f == [] {
      assert x + f == x;
    } else {
      var g, c := f[..|f| - 1], f[|f| - 1];
      assert f == g + [c];
      assert x + f == (x + g) + [c];
      BasenameAfterSlash(x, g);
      BasenameSnoc(x + g, c);
    }
  }

  /** A relative file name joined onto a directory is its own basename. */
  lemma BasenameOfJoin(dir: string, file: string)
    requires '/' !in file
    ensures Basename(Join(dir, file)) == file
  {
    if dir == [] || dir[|dir| - 1] == '/' {
      BasenameAfterSlash(dir, file);
    } else {
      assert dir + "/" + file == (dir + "/") + file;
      BasenameAfterSlash(dir + "/", file);
    }
  }

  /** Text without dots, followed by nothing or by a '.', is what the split keeps. */
  lemma {:induction false} BeforeDotPrefix(name: string, rest: string)
    requires '.' !in name
    requires rest == [] || rest[0] == '.'
    ensures BeforeFirstDot(name + rest) == name
    decreases |name|
  {
    if name == [] {
      assert name + rest == rest;
    } else {
      assert (name + rest)[1..] == name[1..] + rest;
      BeforeDotPrefix(name[1..], rest);
    }
  }

  /** Saving under the default path and loading back keeps the template's name. */
  lemma NameRoundTrip(dir: string, path: string)
    ensures TemplateName(FilePathFromName(dir, TemplateName(path))) == TemplateName(path)
  {
    var name := TemplateName(path);
    BasenameOfJoin(dir, name + ".json");
    BeforeDotPrefix(name, ".json");
  }

  /** `is_default` on a loaded template: the file is `default` or `default.<ext>`. */
  lemma DefaultNameIff(path: string)
    ensures TemplateName(path) == "default" <==>
      Basename(path) == "default" || StartsWith(Basename(path), "default.")
  {
    var b := Basename(path);
    if TemplateName(path) == "default" {
      DefaultNameForward(b);
    }
    if b == "default" || StartsWith(b, "default.") {
      DefaultNameBackward(b);
    }
  }

  lemma DefaultNameForward(b: string)
    requires BeforeFirstDot(b) == "default"
    ensures b == "default" || StartsWith(b, "default.")
  {
    var r := BeforeFirstDot(b);
    if |r| < |b| {
      assert b[..8] == b[..7] + [b[7]];
    }
  }

  lemma DefaultNameBackward(b: string)
    requires b == "default" || StartsWith(b, "default.")
    ensures BeforeFirstDot(b) == "default"
  {
    assert b == "default" + b[7..];
    BeforeDotPrefix("default", b[7..]);
  }

  /** `list_template_files`: the entries ending in ".json", joined onto the
      directory, in listing order. */
  function ListTemplateFiles(dir: string, entries: seq<string>): (r: seq<string>)
    ensures |r| <= |entries|
    ensures forall f :: f in entries && EndsWith(f, ".json") ==> Join(dir, f) in r
    ensures forall x :: x in r ==> exists f :: f in entries && EndsWith(f, ".json") && x == Join(dir, f)
  {
    if entries == [] then []
    else
      var rest := ListTemplateFiles(dir, entries[1..]);
      assert forall f :: f in entries ==> f == entries[0] || f in entries[1..];
      if EndsWith(entries[0], ".json") then [Join(dir, entries[0])] + rest else rest
  }

  /** The listing of two concatenated directory listings is the two
      listings in order: each entry is kept once, where it stands. */
  lemma {:induction false} ListTemplateFilesAppend(dir: string, a: seq<string>, b: seq<string>)
    ensures ListTemplateFiles(dir, a + b) == ListTemplateFiles(dir, a) + ListTemplateFiles(dir, b)
    decreases |a|
  {
    if a == [] {
      assert a + b == b;
    } else {
      assert (a + b)[0] == a[0];
      assert (a + b)[1..] == a[1..] + b;
      ListTemplateFilesAppend(dir, a[1..], b);
    }
  }

  /** One entry is listed once, joined onto the directory, when it ends in
      ".json", and not at all otherwise. */
  lemma ListTemplateFilesSingle(dir: string, f: string)
    ensures ListTemplateFiles(dir, [f]) == if EndsWith(f, ".json") then [Join(dir, f)] else []
  {
    assert [f][1..] == [];
  }
}

=== FILE: text.dfy ===
/** String predicates the engine relies on: Python's `sub in s`,
    `s.endswith(t)`, `s.startswith(t)` and `str.upper()` restricted to ASCII. */
module Text {

  /** `t in s` for strings: `t` occurs as a contiguous substring of `s`. */
  predicate Contains(s: string, t: string) {
    exists i :: 0 <= i <= |s| - |t| && OccursAt(s, t, i)
  }

  predicate OccursAt(s: string, t: string, i: int)
    requires 0 <= i <= |s| - |t|
  {
    s[i..i + |t|] == t
  }

  predicate StartsWith(s: string, t: string) {
    |t| <= |s| && s[..|t|] == t
  }

  predicate EndsWith(s: string, t: string) {
    |t| <= |s| && s[|s| - |t|..] == t
  }

  /** A substring is found wherever it is placed. */
  lemma ContainsMiddle(a: string, t: string, b: string)
    ensures Contains(a + t + b, t)
  {
    var s := a + t + b;
    assert OccursAt(s, t, |a|);
  }

  /** A substring of the tail is a substring of the whole. */
  lemma ContainsExtend(a: string, b: string, t: string)
    requires Contains(b, t)
    ensures Contains(a + b, t)
  {
    var i :| 0 <= i <= |b| - |t| && OccursAt(b, t, i);
    assert (a + b)[|a| + i..|a| + i + |t|] == b[i..i + |t|];
    assert OccursAt(a + b, t, |a| + i);
  }

  function UpperChar(c: char): (u: char)
    ensures 'a' <= c <= 'z' ==> 'A' <= u <= 'Z' && u as int == c as int - 32
    ensures !('a' <= c <= 'z') ==> u == c
  {
    if 'a' <= c <= 'z' then (c as int - 32) as char else c
  }

  /** `str.upper()` on ASCII letters; every other character is kept. */
  function ToUpper(s: string): (r: string)
    ensures |r| == |s|
    ensures forall k :: 0 <= k < |s| ==> r[k] == UpperChar(s[k])
    ensures forall k :: 0 <= k < |r| ==> !('a' <= r[k] <= 'z')
  {
    if s == [] then [] else [UpperChar(s[0])] + ToUpper(s[1..])
  }
}
